=== FILE: README.md ===
# Session control front-end: navigation predicates and session-detail rules

This project models, in Dafny, the decision logic of a web dashboard for
"sessions": shared rooms that a signed-in user can view, activate, stop, and
open to other users through an email allow-list. Two pieces of that front-end
hold real logic, and both are modelled here.

- **Navigation-item predicates** (module `NavItemHelpers`). These decide
  whether a navbar item is a link (`IsLinkItem`), whether it opens a sub-menu
  (`IsWithMenu`), whether it is the active entry for the current page
  (`IsActive`), and which window its link opens in (`GetTarget`). An item is a
  record of optional keys. The `match` rule is `Str(page)` or `Many(pages)`.
  The current page is `Option<string>`, where `None` stands for `undefined`.
- **Session-detail rules** (modules `SessionData`, `SessionView` and
  `SessionHandlers`):
  - the fallback that `fetchSessionData` applies to a fetch result;
  - the `isLoading` flag;
  - the Stop/Activate choice in the action bar;
  - the allowed-users table, or the "No Users Available" message;
  - the email validator of the allow-user form;
  - the four action handlers. Each handler is an ordered list of steps on the
    two UI flags (`opened`, called `dialogOpen` here, and `isHandling`). The
    steps are interleaved with the one command the handler posts and the
    cache revalidation after it.

JavaScript values that the view tests for truthiness are modelled as
`SessionData.Payload`, which covers JSON values plus `undefined`. `Truthy`
states JavaScript's truthiness rule for them.

The activate handler posts the email of the next-auth session
(page-components/SessionControl/SessionDetail.tsx:84). The recoil value read
at line 71 is never used. The model passes what the next-auth session offers
as `SessionHandlers.Auth`: `NoSession` (no session, or one without a user),
where reading `session.user.email` throws and activate stops before it posts;
`NoEmail`, where the post goes out with no `creator`; and `SignedIn(email)`.

No handler catches anything. A handler stops at the first step that throws:
a request that rejects, or reading the email of a missing session or user. Steps before that point
keep their effect; `mutate()` and `setIsHandling(false)` after it never run.
`SessionHandlers.Executed` models this, and the handler lemmas take the
request's outcome (`Resolves` or `Rejects`) as a parameter.

Two behaviours worth stating directly:
- The allow-user validator rejects only the empty string. It does not trim,
  so a value of only spaces passes (`BlankEmailPasses`).
- `isLinkItem` and `isWithMenu` test whether a key is present, so one item
  can be both a link and a menu (`LinkAndMenuOverlap`).

## Model

| member | source | states |
|---|---|---|
| NavItemHelpers.LinkItemIgnoresHrefValue | utils/navitem.helpers.ts:7-9 | Two items with the same presence of an `href` key are both links or both non-links, whatever the `href` values are |
| NavItemHelpers.MenuIffSomeSubitem | utils/navitem.helpers.ts:11-13 | An item opens a menu iff it has at least one sub-item; an empty `subitems` list is no menu |
| NavItemHelpers.LinkAndMenuOverlap | utils/navitem.helpers.ts:7-13 | Some item is both a link and a menu, because both predicates only test key presence |
| NavItemHelpers.Includes | utils/navitem.helpers.ts:33 | The list lookup finds the current page iff the page is defined and is an element of the list |
| NavItemHelpers.IsActive | utils/navitem.helpers.ts:20-34 | Being active implies being a link and having a defined page; an item is active for exactly the pages in an independently defined set (nothing without `href` or `match`, nothing for an empty string rule, the one page of a string rule, the elements of a list rule) |
| NavItemHelpers.NonLinkNeverActive | utils/navitem.helpers.ts:24-26 | An item without an `href` key is inactive for every page |
| NavItemHelpers.NoMatchRuleNeverActive | utils/navitem.helpers.ts:27-28 | An item whose `match` is absent or the empty string is inactive for every page, the empty page included |
| NavItemHelpers.UndefinedPageNeverActive | utils/navitem.helpers.ts:20-33 | An undefined current page makes no item active |
| NavItemHelpers.StringMatchIsExact | utils/navitem.helpers.ts:30-32 | For a link with a non-empty string rule, active iff the page is defined and equal to the rule |
| NavItemHelpers.ListMatchIsMembership | utils/navitem.helpers.ts:33 | For a link with a list rule, active iff the page is an element of the list; an empty list is never active |
| NavItemHelpers.GetTarget | utils/navitem.helpers.ts:36-41 | A non-link item has no target; a link item's target is exactly its own possibly absent `target` |
| NavItemHelpers.TargetIgnoresOtherKeys | utils/navitem.helpers.ts:36-41 | Two items that agree on the presence of `href` and on `target` report the same target, whatever their `href` value, `match` rule and sub-items |
| NavItemHelpers.TargetOnlyForLinks | utils/navitem.helpers.ts:36-41 | Whenever a target is reported, the item is a link and the target is the item's own |
| SessionData.Truthy | page-components/SessionControl/SessionDetail.tsx:51-63 | A value is truthy iff it is none of `undefined`, `null`, `false`, `0` and the empty string; lists and objects are truthy |
| SessionData.FetchFallback | page-components/SessionControl/SessionDetail.tsx:51 | The value handed to the cache is always truthy; a truthy fetch result passes unchanged; a falsy one becomes the empty list |
| SessionData.FetchFallbackIdempotent | page-components/SessionControl/SessionDetail.tsx:51 | Applying the fallback to its own output changes nothing |
| SessionData.ViewDataIsNeverZero | page-components/SessionControl/SessionDetail.tsx:51-62 | The view's data, `undefined` before the first fetch and a fallback result after it, is never the number 0 |
| SessionData.IsLoading | page-components/SessionControl/SessionDetail.tsx:63 | Loading whenever a revalidation is in flight; loading when there is neither error nor data; when nothing is in flight, loading only if there is neither error nor data |
| SessionData.LoadedDataLoadsOnlyWhileValidating | page-components/SessionControl/SessionDetail.tsx:51-63 | Once the cache holds a fallback result, the view is loading exactly while it revalidates, whatever the error |
| SessionView.ActionBar | page-components/SessionControl/SessionDetail.tsx:188-220 | The bar has two buttons. The first is Stop, which runs the kill handler on this session, when the session is active, and Activate, which runs the activate handler on it, otherwise. The second is Back to `./` |
| SessionView.ExactlyOneStateAction | page-components/SessionControl/SessionDetail.tsx:189-208 | Exactly one button of the bar changes the session state. An active session's button posts a kill of that session. An inactive session's button posts its activation as the signed-in user, with no creator when the user has no email, and posts nothing without a session |
| SessionView.DenyRows | page-components/SessionControl/SessionDetail.tsx:285-303 | One row per user, in list order; row i shows user i's email, and its deny button runs the deny handler on that email |
| SessionView.UsersPanelOf | page-components/SessionControl/SessionDetail.tsx:267-303 | A message iff the allow-list is empty, and that message is "No Users Available"; otherwise a table whose rows match the users one to one, in order, each denying its own email |
| SessionView.DenyRowPostsItsEmail | page-components/SessionControl/SessionDetail.tsx:128-139 | Clicking the deny button of row i posts a deny of user i's email for this session's id and creator |
| SessionView.RenderDetail | page-components/SessionControl/SessionDetail.tsx:168-267 | For the payloads that reach the view, which are never the number 0: a falsy payload renders nothing, and a session renders in full. Any other truthy payload throws, because it has no `users` list |
| SessionView.FallbackPayloadThrows | page-components/SessionControl/SessionDetail.tsx:223-267 | Every falsy fetch result, once replaced by the fallback list, makes the detail view throw |
| SessionView.EmptyListAnswerThrows | page-components/SessionControl/SessionDetail.tsx:267 | A backend answer of an empty list makes the detail view throw |
| SessionView.RenderDetailSafe | page-components/SessionControl/SessionDetail.tsx:168-311 | Corrected view: it shows a session in full iff the payload is a session, and renders nothing otherwise; it never throws |
| SessionView.RenderDetailSafeRefines | page-components/SessionControl/SessionDetail.tsx:168-311 | The corrected view agrees with the original wherever the original does not throw, and renders nothing for every fallback value |
| SessionHandlers.ValidateEmail | page-components/SessionControl/SessionDetail.tsx:108 | The validator returns an error iff the value is empty, and that error is "Name Field Required" |
| SessionHandlers.BlankEmailPasses | page-components/SessionControl/SessionDetail.tsx:108 | A non-empty value of only spaces passes, because there is no trim |
| SessionHandlers.CommandOf | page-components/SessionControl/SessionDetail.tsx:78-139 | Each handler posts to its own endpoint. Activate sends the clicked id and the next-auth email as creator, with no creator when the user has no email, and cannot form a command without a session and user (line 84). Kill sends the clicked id. Allow and deny send the on-screen session's creator and id with the given email |
| SessionHandlers.Steps | page-components/SessionControl/SessionDetail.tsx:78-143 | The source order of each handler: the in-flight marker is set just before the post (or the throw in its place), a revalidation follows it, and the marker is cleared last. Allow closes the dialog first and deny closes it after revalidating; nothing else can stop a handler |
| SessionHandlers.Executed | page-components/SessionControl/SessionDetail.tsx:78-143 | The steps that run form a prefix of the handler. No step halts before its last, and the prefix is cut short only at a throw or a rejected post |
| SessionHandlers.HandlerRuns | page-components/SessionControl/SessionDetail.tsx:78-143 | A handler that completes runs all its steps; one that does not stops right after its post or throw, with the in-flight marker set |
| SessionHandlers.SubmitAllowForm | page-components/SessionControl/SessionDetail.tsx:103-157 | Submitting the form runs no step, so posts nothing, iff the validator rejects the value; otherwise it posts exactly the allow command for this session's creator and id with that email |
| SessionHandlers.HandlerPostsOnce | page-components/SessionControl/SessionDetail.tsx:78-143 | A handler posts exactly its own command, whether the request resolves or rejects, and posts nothing when it cannot form one. The post happens while `isHandling` is true. The cache is revalidated iff the handler completes |
| SessionHandlers.HandlerEndsIdle | page-components/SessionControl/SessionDetail.tsx:78-143 | From any state, a handler ends with `isHandling` false iff it completes. A rejected request, or activate without a session and user, leaves `isHandling` true |
| SessionHandlers.AllowClosesDialog | page-components/SessionControl/SessionDetail.tsx:111-126 | From any state, the allow handler ends with the dialog closed, whether or not its request resolves |
| SessionHandlers.DenyDialogEffect | page-components/SessionControl/SessionDetail.tsx:127-142 | The deny handler ends with the dialog open iff it was open and the handler stops before its end |
| SessionHandlers.HandlerDialogEffect | page-components/SessionControl/SessionDetail.tsx:78-143 | Allow always ends with the dialog closed. Deny ends with it closed iff it completes or the dialog was closed already. Activate and kill leave the dialog as it was |

## Findings

| source | as written | input that shows it | evidently intended | confidence | as-written member | corrected member |
|---|---|---|---|---|---|---|
| page-components/SessionControl/SessionDetail.tsx:51 | A falsy fetch result is replaced by an empty list. The detail block is guarded only by truthiness (line 223), and an empty list is truthy, so the block renders and reads the length of the missing `users` list (line 267) | the session lookup answers `null`, or answers `[]` for an unknown id | a payload that is not a session renders nothing | not executed; the throw follows from JavaScript property access on an array | SessionView.RenderDetail (counterexamples: SessionView.FallbackPayloadThrows, SessionView.EmptyListAnswerThrows) | SessionView.RenderDetailSafe (proved: SessionView.RenderDetailSafeRefines) |

## Left out

- HTTP calls through `fetcher` are not modelled. This covers the session lookup, the four command posts, their headers and their responses, which the code never inspects. These are foreign calls. A command appears only as the `Command` value it posts, and its request only as an outcome, `Resolves` or `Rejects`. The server base URL that prefixes the session lookup is a configuration constant and is not modelled.
- SWR caching, `mutate` revalidation and the `isError` pass-through are not modelled. They are library behaviour; revalidation appears only as a `Revalidate` step.
- The next-auth, recoil and router hooks are not modelled. The next-auth session is an `Auth` parameter, the unused recoil value is dropped, and navigation is a `GoTo("./")` action.
- SessionHandlers.CommandOf: a `creator` of `null` and a missing `creator` key in the activate body are both modelled as an absent activator, because the code sends whatever `session.user.email` holds and nothing reads the difference.
- SessionView.RenderDetail: React prints a falsy number 0 as the text "0" instead of skipping it, while the model renders `Blank` for every falsy payload. The view's data is `undefined` or a fallback result, which is never 0 (SessionData.ViewDataIsNeverZero), so the case does not arise.
- Backend effects of activate, kill, allow and deny are not modelled. The shown code only refetches and never computes the new allow-list or active flag.
- Other events that could interleave at a handler's awaits are not modelled: a handler's steps run one after another, and only its stop at a throw or a rejected request is modelled. The double-click race on `isHandling` is a concurrency matter.
- The priority comment on preemption is not modelled, because no code implements it.
- The "New" button (which opens the dialog) and the dialog's close callback are not modelled. They are single flag assignments outside the four handlers.
- Layout, styling and icons are not modelled. This includes the contact-icon component in components/LandingPage/ContactIcons.tsx, which is presentational only.
- NavItemHelpers.IsLinkItem: an `href` key that is present but holds `undefined` cannot be represented, because `Some` carries a string.
- NavItemHelpers.IsWithMenu: a `subitems` key that is present but holds `undefined` cannot be represented. In JavaScript it would throw.
- SessionData.Payload: numbers are integers, so NaN and fractions are not represented. An object is represented only when it has the shape of a session.

=== FILE: navitem_helpers.dfy ===
/**
 Predicates over navigation-bar items: whether an item is a link, whether it
 opens a sub-menu, whether it is the active entry for the current page, and
 which window target its link opens in.

 An item is a record of optional keys rather than a strict two-way union:
 the predicates test key presence, so one item may carry both `href` and
 `subitems`.
 */
module NavItemHelpers {
  import opened Wrappers

  /** The `match` rule of a link: one page path, or a list of page paths. */
  datatype Match = Str(page: string) | Many(pages: seq<string>)

  /**
   A navigation item. `Some` means the key is present. The `match` key is
   called `matching` here because `match` is a Dafny keyword.
   */
  datatype NavItem = NavItem(
    href: Option<string>,
    target: Option<string>,
    matching: Option<Match>,
    subitems: Option<seq<NavItem>>)

  /** True iff the item carries an `href` key. */
  predicate IsLinkItem(item: NavItem) {
    item.href.Some?
  }

  /** True iff the item carries a non-empty list of sub-items. */
  predicate IsWithMenu(item: NavItem) {
    item.subitems.Some? && |item.subitems.value| > 0
  }

  /** The sub-items an item carries; none when the key is absent. */
  function SubitemsOf(item: NavItem): (children: seq<NavItem>) {
    if item.subitems.Some? then item.subitems.value else []
  }

  /**
   JavaScript truthiness of the `match` value: an absent key and the empty
   string are falsy; a list is truthy even when empty.
   */
  predicate HasMatchRule(m: Option<Match>) {
    match m
    case None => false
    case Some(Str(p)) => p != ""
    case Some(Many(_)) => true
  }

  /**
   `Array.prototype.includes` on a list of strings, scanning left to right;
   an undefined needle is never found, since no element is undefined.
   */
  function Includes(pages: seq<string>, needle: Option<string>): (found: bool)
    ensures found <==> needle.Some? && needle.value in pages
  {
    if |pages| == 0 then false
    else if needle == Some(pages[0]) then true
    else Includes(pages[1..], needle)
  }

  /**
   The set of pages an item is active for, stated independently of the
   branch structure of `IsActive`.
   */
  ghost function ActivePages(item: NavItem): set<string> {
    if item.href.None? || item.matching.None? then {}
    else match item.matching.value
      case Str(p) => if p == "" then {} else {p}
      case Many(ps) => set p | p in ps
  }

  /** Whether the item is the active entry for the current page. */
  function IsActive(item: NavItem, currentPage: Option<string>): (active: bool)
    ensures active ==> IsLinkItem(item)
    ensures active ==> currentPage.Some?
    ensures active <==> currentPage.Some? && currentPage.value in ActivePages(item)
  {
    if !IsLinkItem(item) then false
    else if !HasMatchRule(item.matching) then false
    else match item.matching.value
      case Str(p) => currentPage == Some(p)
      case Many(ps) => Includes(ps, currentPage)
  }

  /** The window target of a link item; nothing for any other item. */
  function GetTarget(item: NavItem): (t: Option<string>)
    ensures !IsLinkItem(item) ==> t == None
    ensures IsLinkItem(item) ==> t == item.target
  {
    if IsLinkItem(item) then item.target else None
  }

  /** Whether an item is a link depends on the presence of `href`, not on its value. */
  lemma LinkItemIgnoresHrefValue(a: NavItem, b: NavItem)
    requires a.href.Some? <==> b.href.Some?
    ensures IsLinkItem(a) == IsLinkItem(b)
  {
  }

  /**
   An item opens a menu exactly when it has at least one sub-item; a present
   but empty `subitems` list does not make a menu.
   */
  lemma MenuIffSomeSubitem(item: NavItem)
    ensures IsWithMenu(item) <==> exists child :: child in SubitemsOf(item)
    ensures item.subitems == Some([]) ==> !IsWithMenu(item)
  {
    if IsWithMenu(item) {
      assert SubitemsOf(item)[0] in SubitemsOf(item);
    }
  }

  /** The two predicates are not exclusive: one item may be a link with a menu. */
  lemma LinkAndMenuOverlap()
    ensures exists item :: IsLinkItem(item) && IsWithMenu(item)
  {
    var child := NavItem(None, None, None, None);
    var item := NavItem(Some("/"), None, None, Some([child]));
    assert IsLinkItem(item) && IsWithMenu(item);
  }

  /** An item without an `href` key is never active, whatever the page. */
  lemma NonLinkNeverActive(item: NavItem, currentPage: Option<string>)
    requires !IsLinkItem(item)
    ensures !IsActive(item, currentPage)
  {
  }

  /**
   A link whose `match` is absent or the empty string is never active, not
   even for the empty page.
   */
  lemma NoMatchRuleNeverActive(item: NavItem, currentPage: Option<string>)
    requires item.matching == None || item.matching == Some(Str(""))
    ensures !IsActive(item, currentPage)
  {
  }

  /** An undefined current page never makes an item active. */
  lemma UndefinedPageNeverActive(item: NavItem)
    ensures !IsActive(item, None)
  {
  }

  /**
   With a non-empty string rule, a link is active exactly when the current
   page is defined and equal to the rule.
   */
  lemma StringMatchIsExact(item: NavItem, p: string, currentPage: Option<string>)
    requires IsLinkItem(item)
    requires item.matching == Some(Str(p)) && p != ""
    ensures IsActive(item, currentPage) <==> currentPage == Some(p)
  {
  }

  /**
   With a list rule, a link is active exactly when the current page is an
   element of the list; in particular an empty list is never active.
   */
  lemma ListMatchIsMembership(item: NavItem, ps: seq<string>, currentPage: Option<string>)
    requires IsLinkItem(item)
    requires item.matching == Some(Many(ps))
    ensures IsActive(item, currentPage) <==> currentPage.Some? && currentPage.value in ps
    ensures ps == [] ==> !IsActive(item, currentPage)
  {
  }

  /**
   The target depends only on whether `href` is present and on `target`:
   the value of `href`, the `match` rule and the sub-items play no part.
   */
  lemma TargetIgnoresOtherKeys(a: NavItem, b: NavItem)
    requires a.href.Some? <==> b.href.Some?
    requires a.target == b.target
    ensures GetTarget(a) == GetTarget(b)
  {
  }

  /** A target is only ever reported for link items. */
  lemma TargetOnlyForLinks(item: NavItem)
    requires GetTarget(item).Some?
    ensures IsLinkItem(item) && GetTarget(item) == item.target
  {
  }
}

=== FILE: session_data.dfy ===
/**
 The data behind the session-detail view: the session snapshot the backend
 returns, the JavaScript values a fetch can yield, the fallback applied to a
 fetch result, the loading flag derived from the cache state, and the
 commands the view posts to the backend.
 */
module SessionData {
  import opened Wrappers

  /** One entry of a session's allow-list. */
  datatype User = User(email: string)

  /** A snapshot of a session as the backend reports it. */
  datatype Session = Session(
    id: string,
    name: string,
    description: string,
    isActive: bool,
    creator: string,
    users: seq<User>)

  /**
   A value as JavaScript sees it after decoding a JSON response, plus
   `undefined`. `Record` is an object shaped like a session.
   */
  datatype Payload =
    | Undefined
    | Null
    | Bool(b: bool)
    | Number(n: int)
    | Text(s: string)
    | List(items: seq<Payload>)
    | Record(session: Session)

  /**
   JavaScript truthiness: the falsy values are `undefined`, `null`, `false`,
   `0` and the empty string; every list and every object is truthy.
   */
  predicate Truthy(v: Payload)
    ensures Truthy(v) <==> v !in {Undefined, Null, Bool(false), Number(0), Text("")}
  {
    match v
    case Undefined => false
    case Null => false
    case Bool(b) => b
    case Number(n) => n != 0
    case Text(s) => s != ""
    case List(_) => true
    case Record(_) => true
  }

  /**
   The value `fetchSessionData` hands to the cache: the fetched value when
   it is truthy, an empty list otherwise.
   */
  function FetchFallback(fetched: Payload): (r: Payload)
    ensures Truthy(r)
    ensures Truthy(fetched) ==> r == fetched
    ensures !Truthy(fetched) ==> r == List([])
  {
    if Truthy(fetched) then fetched else List([])
  }

  /** Applying the fallback twice changes nothing more than applying it once. */
  lemma FetchFallbackIdempotent(fetched: Payload)
    ensures FetchFallback(FetchFallback(fetched)) == FetchFallback(fetched)
  {
  }

  /**
   The `isLoading` flag of the session-data hook, from the cache's error,
   data and revalidation state.
   */
  function IsLoading(error: Payload, data: Payload, isValidating: bool): (loading: bool)
    ensures isValidating ==> loading
    ensures !Truthy(error) && !Truthy(data) ==> loading
    ensures loading && !isValidating ==> !Truthy(error) && !Truthy(data)
  {
    (!Truthy(error) && !Truthy(data)) || isValidating
  }

  /**
   Once the cache holds a value that went through the fallback, the view is
   loading exactly while a revalidation is in flight, whatever the error.
   */
  lemma LoadedDataLoadsOnlyWhileValidating(error: Payload, fetched: Payload, isValidating: bool)
    ensures IsLoading(error, FetchFallback(fetched), isValidating) == isValidating
  {
  }

  /**
   The view's data is `undefined` before the first fetch and a fallback
   result afterwards; neither is the number 0, the one falsy value that
   React would print rather than skip.
   */
  lemma ViewDataIsNeverZero(data: Payload, fetched: Payload)
    requires data == Undefined || data == FetchFallback(fetched)
    ensures data != Number(0)
  {
  }

  /**
   The commands the view posts; each field is one key of the JSON body. The
   `activator` of an activation is its `creator` key, `None` when the auth
   session carries no email.
   */
  datatype Command =
    | ActivateSession(activator: Option<string>, id: string)
    | KillSession(id: string)
    | AllowUser(creator: string, id: string, email: string)
    | DenyUser(creator: string, id: string, email: string)

  /** The endpoint each command is posted to. */
  function Endpoint(c: Command): (url: string) {
    match c
    case ActivateSession(_, _) => "/api/session/activateSessionByID"
    case KillSession(_) => "/api/session/killSessionByID"
    case AllowUser(_, _, _) => "/api/session/allowUsertoSession"
    case DenyUser(_, _, _) => "/api/session/denyUsertoSession"
  }

}

=== FILE: session_handlers.dfy ===
/**
 The allow-user form's validator and the four action handlers of the
 session-detail view. A handler is a list of steps on the two UI flags
 (`opened`, here `dialogOpen`, for the allow dialog; `isHandling` for the
 in-flight marker), interleaved with the command it posts and the cache
 revalidation after it.

 No handler catches anything, so a handler stops at the first step that
 throws: a post whose request rejects, or reading the user's
 email when there is no session or no user. The steps before it keep their
 effect and the steps after it never run.
 */
module SessionHandlers {
  import opened Wrappers
  import opened SessionData

  const RequiredMessage := "Name Field Required"

  /**
   The email field's rule: an error message for an empty value, nothing
   otherwise. The value is not trimmed, so whitespace passes.
   */
  function ValidateEmail(value: string): (err: Option<string>)
    ensures err.Some? <==> value == ""
    ensures err.Some? ==> err.value == RequiredMessage
  {
    if |value| < 1 then Some(RequiredMessage) else None
  }

  /** A value made only of spaces passes the rule. */
  lemma BlankEmailPasses(value: string)
    requires |value| > 0
    requires forall i :: 0 <= i < |value| ==> value[i] == ' '
    ensures ValidateEmail(value) == None
  {
  }

  /** The two UI flags of the view. */
  datatype UiState = UiState(dialogOpen: bool, isHandling: bool)

  /** One step of a handler. `Throw` is an expression that throws before any post. */
  datatype Step =
    | SetOpened(open: bool)
    | SetHandling(handling: bool)
    | Post(cmd: Command)
    | Revalidate
    | Throw

  function Apply(st: UiState, step: Step): (next: UiState) {
    match step
    case SetOpened(o) => st.(dialogOpen := o)
    case SetHandling(h) => st.(isHandling := h)
    case Post(_) => st
    case Revalidate => st
    case Throw => st
  }

  /** The state after running every step of `steps` from `st`, first step first. */
  function Run(st: UiState, steps: seq<Step>): (end: UiState)
    decreases |steps|
  {
    if |steps| == 0 then st else Run(Apply(st, steps[0]), steps[1..])
  }

  /** Running two step lists one after the other is running their concatenation. */
  lemma {:induction false} RunAppend(st: UiState, a: seq<Step>, b: seq<Step>)
    ensures Run(st, a + b) == Run(Run(st, a), b)
    decreases |a|
  {
    if |a| > 0 {
      assert (a + b)[1..] == a[1..] + b;
      RunAppend(Apply(st, a[0]), a[1..], b);
    } else {
      assert a + b == b;
    }
  }

  /** Steps that never touch the dialog leave it as it was. */
  lemma {:induction false} RunKeepsOpened(st: UiState, steps: seq<Step>)
    requires forall i :: 0 <= i < |steps| ==> !steps[i].SetOpened?
    ensures Run(st, steps).dialogOpen == st.dialogOpen
    decreases |steps|
  {
    if |steps| > 0 {
      RunKeepsOpened(Apply(st, steps[0]), steps[1..]);
    }
  }

  /** Whatever came before, a final flag step decides the flag. */
  lemma RunEndsWith(st: UiState, steps: seq<Step>, last: Step)
    requires last.SetOpened? || last.SetHandling?
    ensures last.SetOpened? ==> Run(st, steps + [last]).dialogOpen == last.open
    ensures last.SetHandling? ==> Run(st, steps + [last]).isHandling == last.handling
  {
    RunAppend(st, steps, [last]);
  }

  /** Whether the request of a post resolves or rejects. */
  datatype Outcome = Resolves | Rejects

  /** A step at which the handler stops: a throw, or a post that rejects. */
  predicate Halts(step: Step, outcome: Outcome) {
    step.Throw? || (step.Post? && outcome == Rejects)
  }

  /**
   The steps that actually run: every step up to and including the first
   one that halts, or all of them when none halts.
   */
  function Executed(steps: seq<Step>, outcome: Outcome): (done: seq<Step>)
    ensures |done| <= |steps| && done == steps[..|done|]
    ensures forall i :: 0 <= i < |done| - 1 ==> !Halts(done[i], outcome)
    ensures |done| < |steps| ==> |done| > 0 && Halts(done[|done| - 1], outcome)
    decreases |steps|
  {
    if |steps| == 0 then []
    else if Halts(steps[0], outcome) then [steps[0]]
    else [steps[0]] + Executed(steps[1..], outcome)
  }

  /** When no step halts, every step runs. */
  lemma {:induction false} ExecutedWhole(steps: seq<Step>, outcome: Outcome)
    requires forall i :: 0 <= i < |steps| ==> !Halts(steps[i], outcome)
    ensures Executed(steps, outcome) == steps
    decreases |steps|
  {
    if |steps| > 0 {
      ExecutedWhole(steps[1..], outcome);
    }
  }

  /** When step `k` is the first that halts, exactly the steps up to it run. */
  lemma {:induction false} ExecutedStopsAt(steps: seq<Step>, outcome: Outcome, k: nat)
    requires k < |steps| && Halts(steps[k], outcome)
    requires forall i :: 0 <= i < k ==> !Halts(steps[i], outcome)
    ensures Executed(steps, outcome) == steps[..k + 1]
    decreases k
  {
    if k > 0 {
      ExecutedStopsAt(steps[1..], outcome, k - 1);
      assert steps[..k + 1] == [steps[0]] + steps[1..][..k];
    }
  }

  /**
   What the next-auth session offers the activate handler: no session (or
   one without a user), a user without an email, or a user's email.
   */
  datatype Auth = NoSession | NoEmail | SignedIn(email: string)

  /** The four handlers, with the argument each receives. */
  datatype Handler =
    | ActivateClicked(id: string)
    | KillClicked(id: string)
    | AllowSubmitted(email: string)
    | DenyClicked(email: string)

  /**
   The command a handler posts. Activate posts on behalf of the email of
   the auth session; reading it throws when there is no session or no user,
   and yields no creator when the user has no email. Allow and deny name the
   creator and id of the session on screen.
   */
  function CommandOf(h: Handler, detail: Session, auth: Auth): (c: Option<Command>)
    ensures c.None? <==> h.ActivateClicked? && auth.NoSession?
    ensures c.Some? && h.ActivateClicked? ==>
      Endpoint(c.value) == "/api/session/activateSessionByID"
      && c.value.id == h.id
      && (auth.SignedIn? ==> c.value.activator == Some(auth.email))
      && (auth.NoEmail? ==> c.value.activator == None)
    ensures c.Some? && h.KillClicked? ==>
      Endpoint(c.value) == "/api/session/killSessionByID" && c.value.id == h.id
    ensures c.Some? && h.AllowSubmitted? ==>
      Endpoint(c.value) == "/api/session/allowUsertoSession"
      && c.value.creator == detail.creator && c.value.id == detail.id && c.value.email == h.email
    ensures c.Some? && h.DenyClicked? ==>
      Endpoint(c.value) == "/api/session/denyUsertoSession"
      && c.value.creator == detail.creator && c.value.id == detail.id && c.value.email == h.email
  {
    match h
    case ActivateClicked(id) =>
      (match auth
       case NoSession => None
       case NoEmail => Some(ActivateSession(None, id))
       case SignedIn(e) => Some(ActivateSession(Some(e), id)))
    case KillClicked(id) => Some(KillSession(id))
    case AllowSubmitted(email) => Some(AllowUser(detail.creator, detail.id, email))
    case DenyClicked(email) => Some(DenyUser(detail.creator, detail.id, email))
  }

  /** The position of the post (or of the throw that replaces it) in a handler. */
  function ActIndex(h: Handler): (k: nat) {
    if h.AllowSubmitted? then 2 else 1
  }

  /**
   The steps of a handler, in source order. Allow closes the dialog before
   it starts; deny closes it after revalidating. Only the post, or the
   throw in its place, can stop a handler.
   */
  function Steps(h: Handler, detail: Session, auth: Auth): (steps: seq<Step>)
    ensures var k := ActIndex(h);
      && k + 2 < |steps|
      && steps[k - 1] == SetHandling(true)
      && steps[k + 1] == Revalidate
      && steps[|steps| - 1] == SetHandling(false)
      && (forall i :: 0 <= i < k ==> steps[i].SetOpened? || steps[i].SetHandling?)
      && (forall i :: 0 <= i < |steps| && i != k ==> !steps[i].Post? && !steps[i].Throw?)
      && (CommandOf(h, detail, auth).None? ==> steps[k] == Throw)
      && (CommandOf(h, detail, auth).Some? ==> steps[k] == Post(CommandOf(h, detail, auth).value))
    ensures forall i :: 0 <= i < |steps| && steps[i].SetOpened? ==>
      !steps[i].open && ((h.AllowSubmitted? && i == 0) || (h.DenyClicked? && i == 3))
    ensures h.AllowSubmitted? ==> steps[0] == SetOpened(false)
    ensures h.DenyClicked? ==> steps[3] == SetOpened(false)
  {
    var act := match CommandOf(h, detail, auth)
      case Some(c) => Post(c)
      case None => Throw;
    match h
    case ActivateClicked(_) => [SetHandling(true), act, Revalidate, SetHandling(false)]
    case KillClicked(_) => [SetHandling(true), act, Revalidate, SetHandling(false)]
    case AllowSubmitted(_) =>
      [SetOpened(false), SetHandling(true), act, Revalidate, SetHandling(false)]
    case DenyClicked(_) =>
      [SetHandling(true), act, Revalidate, SetOpened(false), SetHandling(false)]
  }

  /** A handler runs to its end iff nothing throws and its post resolves. */
  predicate Completes(h: Handler, auth: Auth, outcome: Outcome) {
    outcome == Resolves && !(h.ActivateClicked? && auth.NoSession?)
  }

  /** The UI flags after a handler has run as far as it gets. */
  function RunHandler(st: UiState, h: Handler, detail: Session, auth: Auth, outcome: Outcome): (end: UiState) {
    Run(st, Executed(Steps(h, detail, auth), outcome))
  }

  /** The commands a step list posts, in order. */
  function Posts(steps: seq<Step>): (cmds: seq<Command>)
    ensures |cmds| <= |steps|
    ensures forall c :: c in cmds <==> Post(c) in steps
    decreases |steps|
  {
    if |steps| == 0 then []
    else (if steps[0].Post? then [steps[0].cmd] else []) + Posts(steps[1..])
  }

  /** A step list without post steps posts nothing. */
  lemma {:induction false} PostsNone(steps: seq<Step>)
    requires forall i :: 0 <= i < |steps| ==> !steps[i].Post?
    ensures Posts(steps) == []
    decreases |steps|
  {
    if |steps| > 0 {
      PostsNone(steps[1..]);
    }
  }

  /** A step list with a single post step posts exactly that step's command. */
  lemma {:induction false} PostsSingle(steps: seq<Step>, k: nat)
    requires k < |steps| && steps[k].Post?
    requires forall i :: 0 <= i < |steps| && i != k ==> !steps[i].Post?
    ensures Posts(steps) == [steps[k].cmd]
    decreases k
  {
    if k > 0 {
      PostsSingle(steps[1..], k - 1);
    } else {
      PostsNone(steps[1..]);
    }
  }

  /**
   The steps a handler runs: all of them when it completes, and otherwise
   those up to its post or throw, where the in-flight marker is set and the
   dialog is as the steps before left it.
   */
  lemma HandlerRuns(st: UiState, h: Handler, detail: Session, auth: Auth, outcome: Outcome)
    ensures var steps := Steps(h, detail, auth);
      var k := ActIndex(h);
      && (Completes(h, auth, outcome) ==> Executed(steps, outcome) == steps)
      && (!Completes(h, auth, outcome) ==> Executed(steps, outcome) == steps[..k + 1])
      && Run(st, steps[..k]).isHandling
      && Run(st, steps[..k + 1]) == Run(st, steps[..k])
  {
    var steps := Steps(h, detail, auth);
    var k := ActIndex(h);
    if Completes(h, auth, outcome) {
      ExecutedWhole(steps, outcome);
    } else {
      ExecutedStopsAt(steps, outcome, k);
    }
    assert steps[..k - 1] + [SetHandling(true)] == steps[..k];
    RunEndsWith(st, steps[..k - 1], SetHandling(true));
    assert steps[..k] + [steps[k]] == steps[..k + 1];
    RunAppend(st, steps[..k], [steps[k]]);
  }

  /**
   A handler posts its command, if it can form one, whether or not the
   request resolves; it posts while marked as handling; and it revalidates
   the cache iff it completes.
   */
  lemma HandlerPostsOnce(st: UiState, h: Handler, detail: Session, auth: Auth, outcome: Outcome)
    ensures var steps := Steps(h, detail, auth);
      var c := CommandOf(h, detail, auth);
      && Posts(Executed(steps, outcome)) == (if c.Some? then [c.value] else [])
      && (forall i :: 0 <= i < |steps| && steps[i].Post? ==> Run(st, steps[..i]).isHandling)
      && (Revalidate in Executed(steps, outcome) <==> Completes(h, auth, outcome))
  {
    var steps := Steps(h, detail, auth);
    var k := ActIndex(h);
    var done := Executed(steps, outcome);
    HandlerRuns(st, h, detail, auth, outcome);
    if CommandOf(h, detail, auth).Some? {
      PostsSingle(done, k);
    } else {
      PostsNone(done);
    }
    if !Completes(h, auth, outcome) {
      assert forall i :: 0 <= i < |done| ==> done[i] != Revalidate;
    }
  }

  /** A handler leaves the view idle iff it runs to its end. */
  lemma HandlerEndsIdle(st: UiState, h: Handler, detail: Session, auth: Auth, outcome: Outcome)
    ensures !RunHandler(st, h, detail, auth, outcome).isHandling <==> Completes(h, auth, outcome)
  {
    var steps := Steps(h, detail, auth);
    HandlerRuns(st, h, detail, auth, outcome);
    if Completes(h, auth, outcome) {
      assert steps == steps[..|steps| - 1] + [SetHandling(false)];
      RunEndsWith(st, steps[..|steps| - 1], SetHandling(false));
    }
  }

  /** Allow closes the dialog in its first step, and nothing after reopens it. */
  lemma AllowClosesDialog(st: UiState, detail: Session, auth: Auth, outcome: Outcome, email: string)
    ensures !RunHandler(st, AllowSubmitted(email), detail, auth, outcome).dialogOpen
  {
    var h := AllowSubmitted(email);
    var done := Executed(Steps(h, detail, auth), outcome);
    HandlerRuns(st, h, detail, auth, outcome);
    assert done[..1] + done[1..] == done;
    RunAppend(st, done[..1], done[1..]);
    RunKeepsOpened(Run(st, done[..1]), done[1..]);
  }

  /** Deny closes the dialog only once it has revalidated. */
  lemma DenyDialogEffect(st: UiState, detail: Session, auth: Auth, outcome: Outcome, email: string)
    ensures RunHandler(st, DenyClicked(email), detail, auth, outcome).dialogOpen
      == (st.dialogOpen && !Completes(DenyClicked(email), auth, outcome))
  {
    var h := DenyClicked(email);
    var steps := Steps(h, detail, auth);
    var done := Executed(steps, outcome);
    HandlerRuns(st, h, detail, auth, outcome);
    if Completes(h, auth, outcome) {
      assert steps[..4] + steps[4..] == steps;
      RunAppend(st, steps[..4], steps[4..]);
      assert steps[..3] + [SetOpened(false)] == steps[..4];
      RunEndsWith(st, steps[..3], SetOpened(false));
      RunKeepsOpened(Run(st, steps[..4]), steps[4..]);
    } else {
      RunKeepsOpened(st, done);
    }
  }

  /**
   Allow always ends with the dialog closed, since it closes it first. Deny
   ends with it closed iff it was closed already or deny completes.
   Activate and kill leave it as it was.
   */
  lemma HandlerDialogEffect(st: UiState, h: Handler, detail: Session, auth: Auth, outcome: Outcome)
    ensures var end := RunHandler(st, h, detail, auth, outcome);
      && (h.AllowSubmitted? ==> !end.dialogOpen)
      && (h.DenyClicked? ==> end.dialogOpen == (st.dialogOpen && !Completes(h, auth, outcome)))
      && (h.ActivateClicked? || h.KillClicked? ==> end.dialogOpen == st.dialogOpen)
  {
    match h
    case AllowSubmitted(email) =>
      AllowClosesDialog(st, detail, auth, outcome, email);
    case DenyClicked(email) =>
      DenyDialogEffect(st, detail, auth, outcome, email);
    case _ =>
      HandlerRuns(st, h, detail, auth, outcome);
      RunKeepsOpened(st, Executed(Steps(h, detail, auth), outcome));
  }

  /**
   Submitting the allow form: a value the rule rejects runs no step, so no
   command is posted; any other value runs the allow handler.
   */
  function SubmitAllowForm(value: string, detail: Session, auth: Auth): (steps: seq<Step>)
    ensures steps == [] <==> ValidateEmail(value).Some?
    ensures steps != [] ==> Posts(steps) == [AllowUser(detail.creator, detail.id, value)]
  {
    if ValidateEmail(value).Some? then []
    else
      var steps := Steps(AllowSubmitted(value), detail, auth);
      PostsSingle(steps, ActIndex(AllowSubmitted(value)));
      steps
  }
}

=== FILE: session_view.dfy ===
/**
 What the session-detail view shows for a fetched payload: the action bar
 (Stop or Activate, then Back), the allowed-users panel (a table with one
 deny button per user, or a "No Users Available" message), and the whole
 detail block, which is rendered only for a truthy payload.
 */
module SessionView {
  import opened Wrappers
  import opened SessionData
  import opened SessionHandlers

  /** What a button does when clicked: run a handler, or navigate. */
  datatype Action = Trigger(handler: Handler) | GoTo(path: string)

  datatype Button = Button(text: string, onClick: Action)

  /** A button that switches the session on or off. */
  predicate TogglesState(b: Button) {
    b.onClick.Trigger? && (b.onClick.handler.ActivateClicked? || b.onClick.handler.KillClicked?)
  }

  /**
   The button group beside the session name. An active session offers Stop,
   which runs the kill handler on it; an inactive one offers Activate. Back
   returns to the session list.
   */
  function ActionBar(s: Session): (bar: seq<Button>)
    ensures |bar| == 2
    ensures bar[1] == Button("Back", GoTo("./"))
    ensures s.isActive ==> bar[0] == Button("Stop", Trigger(KillClicked(s.id)))
    ensures !s.isActive ==> bar[0] == Button("Activate", Trigger(ActivateClicked(s.id)))
  {
    var toggle :=
      if s.isActive then Button("Stop", Trigger(KillClicked(s.id)))
      else Button("Activate", Trigger(ActivateClicked(s.id)));
    [toggle, Button("Back", GoTo("./"))]
  }

  /**
   The action bar holds exactly one button that changes the session state.
   Clicking it posts a kill of this session iff the session is active, and
   otherwise an activation of this session by the signed-in user, with no
   creator when that user has no email, and nothing when there is no session.
   */
  lemma ExactlyOneStateAction(s: Session, auth: Auth)
    ensures var bar := ActionBar(s);
      && TogglesState(bar[0])
      && (forall i :: 0 <= i < |bar| && TogglesState(bar[i]) ==> i == 0)
      && (s.isActive ==> CommandOf(bar[0].onClick.handler, s, auth) == Some(KillSession(s.id)))
      && (!s.isActive && auth.SignedIn? ==>
            CommandOf(bar[0].onClick.handler, s, auth) == Some(ActivateSession(Some(auth.email), s.id)))
      && (!s.isActive && auth.NoEmail? ==>
            CommandOf(bar[0].onClick.handler, s, auth) == Some(ActivateSession(None, s.id)))
      && (!s.isActive && auth.NoSession? ==> CommandOf(bar[0].onClick.handler, s, auth) == None)
  {
  }

  /** One row of the allowed-users table: the email and its deny action. */
  datatype Row = Row(email: string, deny: Action)

  /** The allowed-users panel. */
  datatype UsersPanel = NoUsers(message: string) | Table(rows: seq<Row>)

  const NoUsersMessage := "No Users Available"

  /** The table rows for `users`, in list order, as `users.map` builds them. */
  function DenyRows(users: seq<User>): (rows: seq<Row>)
    ensures |rows| == |users|
    ensures forall i :: 0 <= i < |users| ==>
      rows[i] == Row(users[i].email, Trigger(DenyClicked(users[i].email)))
  {
    if |users| == 0 then []
    else
      var first := Row(users[0].email, Trigger(DenyClicked(users[0].email)));
      [first] + DenyRows(users[1..])
  }

  /**
   The message when the allow-list is empty; otherwise one row per user, in
   list order, whose deny button runs the deny handler on that row's email.
   */
  function UsersPanelOf(s: Session): (p: UsersPanel)
    ensures p.NoUsers? <==> |s.users| == 0
    ensures p.NoUsers? ==> p.message == NoUsersMessage
    ensures p.Table? ==> |p.rows| == |s.users|
    ensures p.Table? ==> forall i :: 0 <= i < |s.users| ==>
      && p.rows[i].email == s.users[i].email
      && p.rows[i].deny == Trigger(DenyClicked(s.users[i].email))
  {
    if |s.users| == 0 then NoUsers(NoUsersMessage) else Table(DenyRows(s.users))
  }

  /** The deny button of row i posts a deny of user i's email for this session and creator. */
  lemma DenyRowPostsItsEmail(s: Session, auth: Auth, i: nat)
    requires i < |s.users|
    ensures var p := UsersPanelOf(s);
      && p.Table?
      && CommandOf(p.rows[i].deny.handler, s, auth) == Some(DenyUser(s.creator, s.id, s.users[i].email))
  {
  }

  /** The detail block: nothing at all, or the full view of a session. */
  datatype DetailView =
    | Blank
    | Detail(name: string, description: string, bar: seq<Button>, users: UsersPanel)

  /** Rendering a payload that is not shaped like a session can throw. */
  datatype RenderError = TypeError

  /** The full view of one session. */
  function SessionDetailOf(s: Session): (v: DetailView) {
    Detail(s.name, s.description, ActionBar(s), UsersPanelOf(s))
  }

  /**
   The detail block as written, for the payloads that reach the view (the
   number 0 never does): a falsy payload renders nothing; a truthy payload
   is read as a session, and reading `users.length` of anything that is not
   one throws.
   */
  function RenderDetail(data: Payload): (r: Result<DetailView, RenderError>)
    ensures !Truthy(data) ==> r == Ok(Blank)
    ensures data.Record? ==> r == Ok(SessionDetailOf(data.session))
    ensures r.Err? <==> Truthy(data) && !data.Record?
  {
    if !Truthy(data) then Ok(Blank)
    else match data
      case Record(s) => Ok(SessionDetailOf(s))
      case _ => Err(TypeError)
  }

  /**
   Every falsy fetch result is replaced by an empty list, which is truthy but
   not a session, so the view throws instead of rendering nothing.
   */
  lemma FallbackPayloadThrows(fetched: Payload)
    requires !Truthy(fetched)
    ensures RenderDetail(FetchFallback(fetched)) == Err(TypeError)
  {
  }

  /** A backend that answers a miss with an empty list makes the view throw. */
  lemma EmptyListAnswerThrows()
    ensures RenderDetail(FetchFallback(List([]))).Err?
  {
  }

  /**
   The detail block as evidently intended: a session is shown in full, and
   anything else, the fallback list included, renders nothing.
   */
  function RenderDetailSafe(data: Payload): (v: DetailView)
    ensures v.Detail? <==> data.Record?
    ensures data.Record? ==> v == SessionDetailOf(data.session)
  {
    match data
    case Record(s) => SessionDetailOf(s)
    case _ => Blank
  }

  /**
   The corrected view agrees with the original wherever the original does
   not throw, and renders nothing for every fallback value.
   */
  lemma RenderDetailSafeRefines(data: Payload, fetched: Payload)
    ensures RenderDetail(data).Ok? ==>
      RenderDetailSafe(data) == RenderDetail(data).value
    ensures !Truthy(fetched) ==> RenderDetailSafe(FetchFallback(fetched)) == Blank
  {
  }
}

=== FILE: wrappers.dfy ===
/** Optional values and results shared by the other modules. */
module Wrappers {

  /** A value that may be absent: JavaScript's `undefined` or a missing key. */
  datatype Option<+T> = None | Some(value: T)

  /** The outcome of a computation that may throw. */
  datatype Result<+T, +E> = Ok(value: T) | Err(error: E)
}
